=== FILE: README.md ===
# Image compressor: decision layer in Dafny

This project models the decision layer of a small Go web service. The service
takes an uploaded image, optionally resizes it, re-encodes it as lossy WebP
and offers the result for download. A browser page drives it. The image
codecs are third-party libraries and are not modelled. The model covers
everything the service and the page decide around them:

- **Upload validator** (`ImageService.ValidateFile`). The declared size is
  checked against the configured maximum first. Then the lower-cased
  `filepath.Ext` of the file name as Go's multipart reader reports it (its
  final path element) is checked against the allow-list.
- **Compression pipeline control** (`ImageService.CompressImage`). This covers
  which library step runs, the resize decision, the encoder settings, the
  generated output name `compressed_<unix>.webp`, and which error is reported.
- **Compress handler** (`Handlers.CompressHandler`). This covers the missing-file
  and validation answers (400), the defaulting of the quality, width and
  height form fields, the failure answer (500), and the success answer with
  its `download_url`.
- **Download handler** (`Handlers.DownloadHandler`). It refuses empty names
  and names containing `..` or `/`, and serves the rest from the download
  directory.
- **Configuration** (`Config.Load`, `Config.GetEnv`). These are the
  compiled-in defaults plus the `PORT` and `DOWNLOAD_DIR` environment
  lookups.
- **Browser page** (`ClientApp`). This covers MIME-then-size pre-validation,
  the selection and button state, the form the page posts, and how the page
  shows the server's reply.

The Go standard-library behaviour the decisions depend on is restated in
`GoStrings` and `GoFilePath`. That covers `strings.ToLower` (ASCII only),
`strings.Contains`, `strings.Join`, `%d` formatting, `strconv.Atoi` (64-bit
`int`), `filepath.Ext` and `filepath.Base` (with `/` as the only separator). `EndToEnd` links
the files together. It shows that what the page posts is what the handler
reads, that the two size checks agree, that the two validators differ, and
that a successful compression hands the page a link the download endpoint
serves.

Files: `results.dfy` (Option/Result), `gostrings.dfy`, `filepath.dfy`,
`config.dfy`, `image_service.dfy`, `handlers.dfy`, `client_app.dfy`,
`end_to_end.dfy`.

Behaviour of the code worth knowing, each proved in the model:

- The handler accepts quality 0..100, including 0.
- The output name is built from the Unix second. Two requests in the same
  second get the same name (`ImageService.OutputFileNameCollision`).
- With the shipped defaults the handler always passes positive width and
  height. So the service's "no resize when both bounds are unset" branch is
  never reached through the handler (`EndToEnd.LoadedServiceAlwaysResizes`).
- The download guard lets the name `.` through. The path passed to `c.File`
  is then `<DownloadDir>/.`, the download directory; what `c.File` answers
  for it is not modelled (`Handlers.DownloadAdmitsDot`).

## Model

| member | source | states |
|---|---|---|
| `GoStrings.ToLower` | internal/service/image_service.go:128 | ASCII lower-casing keeps the length and maps each character through the ASCII fold |
| `GoStrings.ToLowerIdempotent` | internal/service/image_service.go:128 | a lower-cased string has no upper-case ASCII letter, and lower-casing it again changes nothing |
| `GoStrings.Contains` | internal/api/handlers.go:108 | `strings.Contains` is true exactly when the substring occurs at some position |
| `GoStrings.ContainsSlash` | internal/api/handlers.go:108 | `Contains(s, "/")` holds exactly when some character of `s` is `/` |
| `GoStrings.ContainsDotDot` | internal/api/handlers.go:108 | `Contains(s, "..")` holds exactly when two adjacent characters are both `.` |
| `GoStrings.Join` | internal/service/image_service.go:130 | `strings.Join` of no parts is empty and of one part is that part; with two or more it starts with the first part and the separator; it ends with the last part, and its length is the parts' total plus one separator per neighbouring pair |
| `GoStrings.JoinCons` | internal/service/image_service.go:130 | joining two or more parts is the first part, the separator, then the rest joined |
| `GoStrings.FormatInt` | internal/service/image_service.go:62 | `%d` output is non-empty, all digits apart from a leading `-`, and starts with `-` exactly for negative numbers; it has no leading zero (a leading `0` means the output is `0`) and never reads `-0` |
| `GoStrings.Atoi` | internal/api/handlers.go:54 | `strconv.Atoi` succeeds exactly on an optional sign followed by at least one digit (leading zeros allowed) whose value is in int64 range, and then yields that signed value |
| `GoStrings.AtoiFormatInt` | internal/service/image_service.go:62 | printing an int64 with `%d` and reading it back with `Atoi` gives the same number |
| `GoStrings.FormatIntInjective` | internal/service/image_service.go:62 | two int64 values print the same exactly when they are equal |
| `GoFilePath.FinalElementStart` | internal/service/image_service.go:128 | the final path element starts just after the last `/`, or at 0 when there is none; no `/` follows that point |
| `GoFilePath.Ext` | internal/service/image_service.go:128 | the extension is a suffix of the path; if non-empty it is one `.` followed by no `.` or `/` |
| `GoFilePath.ExtAtLastDot` | internal/service/image_service.go:128 | when position `i` holds the last `.` of the final element, the extension is the suffix from `i` |
| `GoFilePath.ExtDotInFinalElement` | internal/service/image_service.go:128 | a non-empty extension starts at a `.` inside the final path element |
| `GoFilePath.ExtEmptyIff` | internal/service/image_service.go:128 | the extension is empty exactly when the final path element has no `.` |
| `GoFilePath.ExtToLower` | internal/service/image_service.go:128 | taking the extension commutes with ASCII lower-casing |
| `GoFilePath.TrimTrailingSlashes` | internal/api/handlers.go:31 | the result is a prefix of the path that does not end in `/`, and everything dropped is `/` |
| `GoFilePath.Base` | internal/api/handlers.go:31 | `filepath.Base` is `.` for the empty path and `/` exactly for a non-empty path of separators only; otherwise it is non-empty and has no `/` |
| `GoFilePath.BaseOfPath` | internal/api/handlers.go:31 | the base of a directory part, a single element and trailing separators is that element |
| `GoFilePath.BaseIdempotent` | internal/api/handlers.go:31 | taking the base twice gives the same as taking it once |
| `GoFilePath.BaseDropsTrailingSlash` | internal/api/handlers.go:31 | `a.png/` has base `a.png` |
| `GoFilePath.BaseDropsDirectory` | internal/api/handlers.go:31 | `photos/2024/cat.jpg` has base `cat.jpg` |
| `Config.GetEnv` | internal/config/config.go:29-34 | the environment value when it is set and non-empty, otherwise the default; empty only if the default is |
| `Config.Load` | internal/config/config.go:17-27 | the loaded configuration is well-formed: every format can match a lower-cased extension, default quality is in 0..100, default width and height are positive. PORT and DOWNLOAD_DIR fall back to `8080` and `./downloads`; the maximum size is 10 MiB |
| `Config.LoadReadsOnlyPortAndDir` | internal/config/config.go:17-27 | two environments that agree on PORT and DOWNLOAD_DIR load the same configuration |
| `ImageService.ValidationError.Message` | internal/service/image_service.go:123-131 | the size error reads `file size exceeds maximum allowed size of ` ... ` bytes`; the format error reads `unsupported file format. Allowed formats: ` followed by the allow-list joined with `, ` |
| `ImageService.FileTooLargeMessageNamesLimit` | internal/service/image_service.go:124 | the limit reads back as a number from the size error |
| `ImageService.JoinDefaultFormats` | internal/service/image_service.go:130 | the shipped allow-list joins to `.png, .jpg, .jpeg, .gif` |
| `ImageService.UnsupportedFormatMessageLists` | internal/service/image_service.go:130 | under the shipped allow-list the format error is `unsupported file format. Allowed formats: .png, .jpg, .jpeg, .gif` |
| `ImageService.IsAllowedFormat` | internal/service/image_service.go:148-155 | the scan returns true exactly when the extension is an element of the allow-list |
| `ImageService.NormalizedExt` | internal/service/image_service.go:128 | the compared extension is empty or a proper extension, and it is a suffix of the lower-cased file name |
| `ImageService.NormalizedExtIsLoweredExt` | internal/service/image_service.go:128 | the compared extension equals the lower-cased `filepath.Ext` of the file name, as the service computes it |
| `ImageService.ValidateFile` | internal/service/image_service.go:121-134 | an oversized file always gets the size error, even with a bad name. Otherwise the file passes exactly when its extension is allowed, and fails with the format error listing the allowed formats |
| `ImageService.NormalizedExtOfSuffix` | internal/service/image_service.go:128 | a lower-cased name ending in a proper extension has exactly that extension |
| `ImageService.ValidateFileBySuffix` | internal/service/image_service.go:121-134 | with an allow-list of proper extensions, a file passes exactly when it is within the limit and its lower-cased name ends in an allowed extension |
| `ImageService.ValidateFileIgnoresContentType` | internal/service/image_service.go:121-134 | validation depends only on the header's size and file name |
| `ImageService.NormalizedExtFoldsCase` | internal/service/image_service.go:128 | `photo.PNG` is compared as `.png` |
| `ImageService.NormalizedExtTakesLastDot` | internal/service/image_service.go:128 | `a.png.exe` is compared as `.exe` |
| `ImageService.NormalizedExtWithoutDot` | internal/service/image_service.go:128 | `README` has an empty extension |
| `ImageService.NormalizedExtDotInDirectory` | internal/service/image_service.go:128 | `holiday.png/raw` has an empty extension: a dot in an earlier element does not count (a fact about the validator's input; through the handler the name is already reduced to `raw`) |
| `ImageService.NormalizedExtAllowedJpeg` | internal/service/image_service.go:128 | `edge.jpeg` is compared as `.jpeg` |
| `ImageService.SizeCheckExamples` | internal/service/image_service.go:123-125 | under the loaded configuration, exactly 10 MiB passes, one byte more fails, and an oversized `.exe` gets the size error |
| `ImageService.FormatCheckExamples` | internal/service/image_service.go:128-131 | under the loaded configuration, `photo.PNG` passes; `a.png.exe`, `README` and `holiday.png/raw` get the format error, when given to the validator directly |
| `ImageService.ResizeBounds` | internal/service/image_service.go:55-59 | a resize to width x height is requested exactly when width > 0 or height > 0 |
| `ImageService.OutputFileName` | internal/service/image_service.go:62 | the output name starts with `compressed_` and ends with `.webp`, and what lies between is exactly the `%d` form of the Unix second |
| `ImageService.OutputFileNameIsPlain` | internal/service/image_service.go:62 | the output name has no `/`, and its only `.` is the one starting `.webp` |
| `ImageService.OutputFileNameEncodesTime` | internal/service/image_service.go:62 | the Unix second can be read back from between the prefix and the suffix |
| `ImageService.OutputFileNameCollision` | internal/service/image_service.go:62 | two requests get the same output name exactly when they run in the same Unix second |
| `ImageService.ServiceError.Message` | internal/service/image_service.go:50-100 | each error text starts with `failed to ` and the words of the failing step, followed unchanged by the library's own text |
| `ImageService.ServiceErrorMessageInjective` | internal/service/image_service.go:50-100 | two service errors have the same text exactly when they are the same error |
| `ImageService.CompressImage` | internal/service/image_service.go:41-118 | resize only after a successful decode; encode lossily at the given quality only after decode and create succeed; success exactly when every step succeeds, with the measured sizes and the generated name; otherwise the first failing step's error |
| `Handlers.StoredHeader` | internal/api/handlers.go:31 | the stored header keeps the size and content type; a non-empty sent name becomes a non-empty single element (or `/`) |
| `Handlers.FormFile` | internal/api/handlers.go:31-38 | the file is missing exactly when no part of that name is a file part with a non-empty file name (Go's multipart reader files the others as plain values); otherwise the header of the first such part, with the file name reduced to its `filepath.Base` |
| `Handlers.PostForm` | internal/api/handlers.go:53 | the value of the first field of that name; with no such field the value is empty |
| `Handlers.EffectiveQuality` | internal/api/handlers.go:52-57 | the parsed value when the field parses as an integer in 0..100, otherwise the configured default |
| `Handlers.EffectiveDimension` | internal/api/handlers.go:59-71 | the parsed value when the field parses as a positive integer, otherwise the configured default |
| `Handlers.RequestOptions` | internal/api/handlers.go:52-71 | each of quality, width and height is the value its form field parses to exactly when that value is in range (0..100 for quality, positive for the bounds), and the configured default otherwise |
| `Handlers.RequestOptionsInRange` | internal/api/handlers.go:52-71 | with a well-formed configuration, the effective quality is in 0..100 and the effective width and height are positive, for every request |
| `Handlers.QualityExamples` | internal/api/handlers.go:52-57 | `0`, `100` and `+50` are used as given; `101`, `-1`, the empty string, `high` and ` 50` give the default |
| `Handlers.DimensionExamples` | internal/api/handlers.go:59-64 | `800` is used; `0`, `-800` and `800px` give the default |
| `Handlers.CompressHandler` | internal/api/handlers.go:30-94 | no image: 400 "No image file provided", and neither validation nor compression runs. Validation failure: 400 with its message, and no compression. Compression runs exactly for a valid file, with the effective options. 500 only after a compression error, with the message `Failed to compress image: ` followed by that error's text. 200 exactly with a success body that carries the compression's two sizes and generated name, and a download URL of `/api/download/` plus that name. Error messages are never empty |
| `Handlers.NamelessFilePartIsNoImage` | internal/api/handlers.go:31-38 | an `image` part with an empty file name gets 400 "No image file provided", and validation does not run |
| `Handlers.HandlerValidatesBaseName` | internal/api/handlers.go:31-47 | an `image` part named `a.png/` is read as `a.png`, passes the loaded validator, and is compressed |
| `Handlers.CompressStatusMatchesPipeline` | internal/api/handlers.go:74-93 | for a valid upload the status is 200 exactly when the compression succeeds, and 500 exactly when it fails |
| `Handlers.HandlerAlwaysResizes` | internal/api/handlers.go:59-74 | with a well-formed configuration, every compression the handler starts resizes to the effective bounds |
| `Handlers.DownloadHandler` | internal/api/handlers.go:97-118 | an empty name gets 400 "No filename provided"; a name with `..` or `/` gets 400 "Invalid filename"; otherwise the file at download dir + `/` + name is served |
| `Handlers.DownloadStaysInDirectory` | internal/api/handlers.go:108-116 | a served path is the download directory, one `/`, and a single non-empty element that has no `/` and is not `..` |
| `Handlers.DownloadRefusesTraversal` | internal/api/handlers.go:99-114 | `../secret`, `..`, `sub/file.webp` and the empty name are refused |
| `Handlers.DownloadAdmitsDot` | internal/api/handlers.go:108-117 | the name `.` passes the guard, and the path passed to `c.File` is `<DownloadDir>/.`, the download directory; what `c.File` answers for it is not modelled |
| `Handlers.GeneratedNamePassesGuard` | internal/api/handlers.go:108-116 | every generated output name passes the guard and is served from the download directory |
| `Handlers.SuccessLinkIsServed` | internal/api/handlers.go:84-93 | the download URL of every success response is `/api/download/` plus a name that the download handler serves |
| `ClientApp.ValidateFile` | web/static/app.js:86-100 | a MIME type outside the allowed list is refused whatever the size. An allowed type is refused for size exactly when it is over 10 MiB, so exactly 10 MiB passes |
| `ClientApp.SelectFile` | web/static/app.js:68-83 | a rejected file leaves the selection, button and result as they were and shows the rejection. An accepted file becomes the selection, enables the button and clears both panels. The loader is untouched either way |
| `ClientApp.CreateFormData` | web/static/app.js:169-182 | the image part comes first; every other part is a non-empty field; quality, width and height each appear exactly when their input is non-empty |
| `ClientApp.CreateFormDataReadBack` | web/static/app.js:169-182 | the server reads the uploaded file under `image` with its name reduced to its base, or no file when the name is empty, and exactly the typed quality, width and height values |
| `ClientApp.CreateFormDataFile` | web/static/app.js:171 | the server's `image` file for the page's form is the selection's header with its name reduced to its base, or none when the name is empty |
| `ClientApp.CreateFormDataFields` | web/static/app.js:173-179 | the server reads exactly the typed quality, width and height values, an absent field reading as an empty input |
| `ClientApp.PostFormOptional` | web/static/app.js:177-179 | a form that starts with an optional field reads that field's value when it was appended, and otherwise reads as the rest of the form |
| `ClientApp.PlainNameIsKept` | web/static/app.js:171 | a file name that is a single element reaches the server's validator unchanged |
| `ClientApp.Compress` | web/static/app.js:135-166 | with no selection nothing changes. Otherwise the selection stays and the button is re-enabled. A 2xx success reply shows its download link, a failure body shows its non-empty error, and any other JSON reply shows the generic failure message. No reply, or a reply that is not JSON, shows the network message. Exactly one of result and error is visible |
| `ClientApp.CompressRequest` | web/static/app.js:135-145 | a request is built exactly when a file is selected, and it is the form `createFormData` builds from the selection and the three inputs |
| `ClientApp.StepKeepsConsistent` | web/static/app.js:68-74 | a single user action keeps the button enabled only with a selection, and keeps the selection a validated file |
| `ClientApp.RunKeepsConsistent` | web/static/app.js:68-74 | any sequence of user actions keeps the page consistent |
| `ClientApp.PostedFilesPassedValidation` | web/static/app.js:135-145 | from the initial page, every form the page posts carries a file that passed the page's validation |
| `EndToEnd.PageInputsDecideOptions` | web/static/app.js:173-179 | the server's effective options for the page's form are the handler's defaulting applied to the three inputs |
| `EndToEnd.EmptyInputsGiveDefaults` | internal/api/handlers.go:52-71 | empty inputs give the configured default quality, width and height |
| `EndToEnd.SizeChecksAgree` | web/static/app.js:94-97 | for an allowed MIME type, the page refuses for size exactly when the loaded server's validator would, on the header the server stores |
| `EndToEnd.ChecksRunInOppositeOrder` | web/static/app.js:88-97 | a 20 MiB text file gets the type error from the page and the size error from the server |
| `EndToEnd.PageAcceptsWhatServerRefuses` | web/static/app.js:88-91 | a PNG named `scan` passes the page and gets the server's format error |
| `EndToEnd.NamelessUploadIsNoImage` | web/static/app.js:171 | a file with an empty name, whatever the page thinks of it, gets 400 "No image file provided" |
| `EndToEnd.LoadedServiceAlwaysResizes` | internal/config/config.go:23-25 | under the loaded configuration, every compression the handler starts uses quality in 0..100 and resizes |
| `EndToEnd.SuccessfulRoundLeadsToServedFile` | web/static/app.js:155-156 | for the form the page posts, after a 200 reply the page shows no error and links `/api/download/` plus the generated name, which the download endpoint serves |
| `EndToEnd.RefusalIsShown` | web/static/app.js:157-158 | for the form the page posts, after any non-200 reply the page shows the server's own message and no result |

## Left out

- Image decoding, `imaging.Fit` resizing and WebP encoding are library calls. Their success or failure is an input (`ImageService.Backend`). Output dimensions and aspect ratio are not modelled.
- Creating the output file, the `Seek` calls that measure sizes, and the unused `GetFileSize` helper are filesystem I/O. The measured sizes are inputs.
- `filepath.Join(DownloadDir, name)` (where the service writes) is not modelled. It also cleans the path. The handler serves `DownloadDir + "/" + name`. The two agree only up to path cleaning.
- The compression ratio and the processing time are float64 arithmetic and a wall-clock read. They are left out of the result and of the JSON body. The current Unix second is a parameter.
- Serving the file (`c.File`), including the 404 for a missing file, is filesystem I/O.
- Gin routing, JSON serialisation, CORS, static files and version flags (cmd/server/main.go) are HTTP plumbing.
- `FormFile`'s other failure causes (a body that is not multipart, a parse error) are merged into "no image part". Form values are read as strings with no size limits.
- `Handlers.PostForm`: Go files a file part sent with an empty file name as a plain value holding the part's content. The model carries no contents, so `PostForm` reads only field parts.
- `GoStrings.ToLower`: ASCII only. Go's `strings.ToLower` also folds non-ASCII letters.
- `GoStrings.Atoi`: assumes a 64-bit `int`.
- Header sizes and configuration integers are unbounded `int`. The int64 width of `MaxFileSize` and `header.Size` is not modelled.
- `ClientApp.UploadHeader`: assumes the server receives the file's name and MIME type exactly as the page holds them. Browsers percent-escape `"`, CR and LF in multipart file names and send `application/octet-stream` for an empty type; that encoding is browser behaviour outside this code. The server's verdict never depends on the content type, and escaping those characters leaves an allowed extension allowed and a refused one refused.
- The page's DOM updates, preview (`FileReader`), loader animation, `formatFileSize` (floating point) and `fetch` are UI and async I/O. The reply is an input.
- `ClientApp.Compress`: treats a click and its reply as one step. A file chosen while the request is in flight is not modelled.
- The initial disabled state of the compress button comes from the page markup, which is not part of this model. `ClientApp.Initial` assumes it.

=== FILE: client_app.dfy ===
/** web/static/app.js: the browser page's decisions. It pre-validates the
    chosen file, keeps the current selection and the compress button's state,
    builds the multipart form it posts, and turns the server's reply into
    either a result panel with a download link or an error message. The DOM,
    previews and the fetch itself are not modelled; the reply is an input. */
module ClientApp {
  import opened Results
  import GoFilePath
  import opened ImageService
  import opened Handlers

  /** ALLOWED_TYPES: the MIME types the page accepts. */
  const AllowedTypes: seq<string> := ["image/png", "image/jpeg", "image/jpg", "image/gif"]

  /** MAX_FILE_SIZE: 10 MiB. */
  const MaxFileSize: int := 10 * 1024 * 1024

  /** A browser File: its name, its MIME type as the browser reports it, and
      its size in bytes. */
  datatype File = File(name: string, mimeType: string, size: int)

  datatype Rejection = WrongType | TooLarge {
    function Message(): string {
      match this
      case WrongType => "対応していないファイル形式です。PNG, JPG, JPEG, GIF形式のみ対応しています。"
      case TooLarge => "ファイルサイズが大きすぎます。10MB以下のファイルを選択してください。"
    }
  }

  /** validateFile: the type check comes first, then the size check; a file of
      exactly MaxFileSize bytes is accepted. */
  function ValidateFile(f: File): (r: Option<Rejection>)
    ensures f.mimeType !in AllowedTypes ==> r == Some(WrongType)
    ensures f.mimeType in AllowedTypes ==> (r == Some(TooLarge) <==> f.size > MaxFileSize)
    ensures r.None? <==> f.mimeType in AllowedTypes && f.size <= MaxFileSize
  {
    if f.mimeType !in AllowedTypes then Some(WrongType)
    else if f.size > MaxFileSize then Some(TooLarge)
    else None
  }

  // ---------------------------------------------------------------------------
  // Page state
  // ---------------------------------------------------------------------------

  /** What the page shows and remembers: the selected file, whether the
      compress button is enabled, whether the loader is visible, the error
      message on display, and the download link of the result panel when that
      panel is visible. */
  datatype Page = Page(
    selected: Option<File>,
    compressEnabled: bool,
    loading: bool,
    error: Option<string>,
    result: Option<string>)

  /** The page as it loads. The button starts disabled in the page markup,
      which is not part of this model. */
  const Initial: Page := Page(None, false, false, None, None)

  /** handleFileSelect: a file that fails validation leaves the selection and
      the button as they were and shows the rejection; a file that passes
      becomes the selection, enables the button and clears both panels. The
      loader is left alone either way. */
  function SelectFile(p: Page, f: File): (q: Page)
    ensures ValidateFile(f).Some? ==>
      && q.selected == p.selected
      && q.compressEnabled == p.compressEnabled
      && q.error == Some(ValidateFile(f).value.Message())
      && q.result == p.result
    ensures ValidateFile(f).None? ==>
      && q.selected == Some(f)
      && q.compressEnabled
      && q.error.None?
      && q.result.None?
    ensures q.loading == p.loading
  {
    match ValidateFile(f)
    case Some(rejection) => p.(error := Some(rejection.Message()))
    case None => p.(selected := Some(f), compressEnabled := true, error := None, result := None)
  }

  // ---------------------------------------------------------------------------
  // The compress request
  // ---------------------------------------------------------------------------

  /** The raw values of the quality, width and height inputs. */
  datatype Inputs = Inputs(quality: string, width: string, height: string)

  /** The header the server sees for an uploaded File. */
  function UploadHeader(f: File): FileHeader {
    FileHeader(f.name, f.size, f.mimeType)
  }

  /** createFormData: the image first, then each option only when its input
      is non-empty. */
  function CreateFormData(f: File, inputs: Inputs): (form: Form)
    ensures |form| >= 1 && form[0] == FilePart("image", UploadHeader(f))
    ensures forall i :: 1 <= i < |form| ==> form[i].FieldPart? && form[i].value != ""
    ensures (exists i :: 0 <= i < |form| && form[i] == FieldPart("quality", inputs.quality)) <==> inputs.quality != ""
    ensures (exists i :: 0 <= i < |form| && form[i] == FieldPart("width", inputs.width)) <==> inputs.width != ""
    ensures (exists i :: 0 <= i < |form| && form[i] == FieldPart("height", inputs.height)) <==> inputs.height != ""
    ensures |form| == 1 + (if inputs.quality != "" then 1 else 0)
      + (if inputs.width != "" then 1 else 0) + (if inputs.height != "" then 1 else 0)
  {
    var q := OptionalField("quality", inputs.quality);
    var w := OptionalField("width", inputs.width);
    var h := OptionalField("height", inputs.height);
    var form := [FilePart("image", UploadHeader(f))] + q + w + h;
    assert inputs.quality != "" ==> form[1] == FieldPart("quality", inputs.quality);
    assert inputs.width != "" ==> form[1 + |q|] == FieldPart("width", inputs.width);
    assert inputs.height != "" ==> form[1 + |q| + |w|] == FieldPart("height", inputs.height);
    form
  }

  /** `if (value) formData.append(name, value)`: a string is truthy exactly
      when it is non-empty. */
  function OptionalField(name: string, value: string): seq<Part> {
    if value != "" then [FieldPart(name, value)] else []
  }

  /** The server reads back what the page typed: the uploaded file under
      "image" with the base of its name (none at all when the name is empty),
      and each option's input (an absent field reads as "", as an empty input
      would). */
  lemma CreateFormDataReadBack(f: File, inputs: Inputs)
    ensures var form := CreateFormData(f, inputs);
      && FormFile(form, "image") == (if f.name == "" then None else Some(StoredHeader(UploadHeader(f))))
      && PostForm(form, "quality") == inputs.quality
      && PostForm(form, "width") == inputs.width
      && PostForm(form, "height") == inputs.height
  {
    CreateFormDataFile(f, inputs);
    CreateFormDataFields(f, inputs);
  }

  /** The three option fields the server reads from the page's form are the
      three inputs. */
  lemma CreateFormDataFields(f: File, inputs: Inputs)
    ensures var form := CreateFormData(f, inputs);
      && PostForm(form, "quality") == inputs.quality
      && PostForm(form, "width") == inputs.width
      && PostForm(form, "height") == inputs.height
  {
    var q := OptionalField("quality", inputs.quality);
    var w := OptionalField("width", inputs.width);
    var h := OptionalField("height", inputs.height);
    var form := CreateFormData(f, inputs);
    assert form[1..] == q + (w + h);
    assert h + [] == h;
    PostFormOptional("quality", inputs.quality, w + h, "quality");
    PostFormOptional("width", inputs.width, h, "quality");
    PostFormOptional("height", inputs.height, [], "quality");
    PostFormOptional("quality", inputs.quality, w + h, "width");
    PostFormOptional("width", inputs.width, h, "width");
    PostFormOptional("height", inputs.height, [], "width");
    PostFormOptional("quality", inputs.quality, w + h, "height");
    PostFormOptional("width", inputs.width, h, "height");
    PostFormOptional("height", inputs.height, [], "height");
  }

  /** Reading a form that starts with an optional field: the field's value
      when it is present, otherwise whatever the rest of the form holds. */
  lemma PostFormOptional(name: string, value: string, rest: Form, key: string)
    ensures PostForm(OptionalField(name, value) + rest, key) ==
      if key == name && value != "" then value else PostForm(rest, key)
  {
    if value == "" {
      assert OptionalField(name, value) + rest == rest;
    } else {
      assert (OptionalField(name, value) + rest)[1..] == rest;
    }
  }

  /** The file part the server reads from the page's form: the stored header
      of the selection, or none when its name is empty. */
  lemma CreateFormDataFile(f: File, inputs: Inputs)
    ensures FormFile(CreateFormData(f, inputs), "image") ==
      (if f.name == "" then None else Some(StoredHeader(UploadHeader(f))))
  {
    var form := CreateFormData(f, inputs);
    if f.name == "" {
      assert FormFile(form, "image") == FormFile(form[1..], "image");
      assert forall i :: 0 <= i < |form[1..]| ==> !IsFileNamed(form[1..][i], "image");
    }
  }

  /** A name that is a single element, as a browser File's name is, reaches
      the server unchanged. */
  lemma PlainNameIsKept(f: File)
    requires f.name != "" && forall k :: 0 <= k < |f.name| ==> f.name[k] != '/'
    ensures StoredHeader(UploadHeader(f)) == UploadHeader(f)
  {
    GoFilePath.BaseOfPath("", f.name, "");
    assert "" + f.name + "" == f.name;
  }

  /** What came back from fetch: nothing (a network failure), or the server's
      response. A response that is a served file is not JSON, so reading it
      as JSON throws and the page takes the same path as a network failure. */
  datatype Reply = NoReply | Answered(response: Response)

  const GenericFailure: string := "圧縮に失敗しました。"
  const NetworkFailure: string := "サーバーとの通信に失敗しました。"

  /** handleCompress, from the click to the end of its `finally`: nothing
      happens without a selection; otherwise a 2xx reply whose body reports
      success shows the result panel with the download link, any other reply
      shows the server's error (or a generic one), and the button is enabled
      again in every case. */
  function Compress(p: Page, reply: Reply): (q: Page)
    ensures p.selected.None? ==> q == p
    ensures p.selected.Some? ==> q.selected == p.selected && q.compressEnabled && !q.loading
    ensures p.selected.Some? ==> (q.result.Some? <==> q.error.None?)
    ensures
      (p.selected.Some? && reply.Answered? && reply.response.Json?
       && 200 <= reply.response.status < 300 && reply.response.body.Success?) ==>
        q.result == Some(reply.response.body.downloadUrl)
    ensures
      (p.selected.Some? && reply.Answered? && reply.response.Json?
       && reply.response.body.Failure? && reply.response.body.error != "") ==>
        q.error == Some(reply.response.body.error)
    ensures
      (p.selected.Some? && reply.Answered? && reply.response.Json?
       && !(200 <= reply.response.status < 300 && reply.response.body.Success?)
       && !(reply.response.body.Failure? && reply.response.body.error != "")) ==>
        q.error == Some(GenericFailure)
    ensures p.selected.Some? && reply.NoReply? ==> q.error == Some(NetworkFailure)
    ensures (p.selected.Some? && reply.Answered? && reply.response.ServeFile?) ==>
      q.error == Some(NetworkFailure)
  {
    if p.selected.None? then p
    else
      match reply
      case NoReply => Page(p.selected, true, false, Some(NetworkFailure), None)
      case Answered(ServeFile(_)) => Page(p.selected, true, false, Some(NetworkFailure), None)
      case Answered(Json(status, body)) =>
        if 200 <= status < 300 && body.Success? then
          Page(p.selected, true, false, None, Some(body.downloadUrl))
        else
          var message := if body.Failure? && body.error != "" then body.error else GenericFailure;
          Page(p.selected, true, false, Some(message), None)
  }

  /** The form Compress posts for the current selection. */
  function CompressRequest(p: Page, inputs: Inputs): (form: Option<Form>)
    ensures form.Some? <==> p.selected.Some?
    ensures form.Some? ==> form.value == CreateFormData(p.selected.value, inputs)
  {
    match p.selected
    case None => None
    case Some(f) => Some(CreateFormData(f, inputs))
  }

  // ---------------------------------------------------------------------------
  // The page over a sequence of user actions
  // ---------------------------------------------------------------------------

  datatype Event = Choose(file: File) | ClickCompress(reply: Reply)

  function Step(p: Page, e: Event): Page {
    match e
    case Choose(f) => SelectFile(p, f)
    case ClickCompress(reply) => Compress(p, reply)
  }

  function Run(p: Page, events: seq<Event>): Page
    decreases |events|
  {
    if |events| == 0 then p else Run(Step(p, events[0]), events[1..])
  }

  /** What the page keeps true: the button is enabled only with a selection,
      and a selection is always a file that passed validation. */
  predicate Consistent(p: Page) {
    && (p.compressEnabled ==> p.selected.Some?)
    && (p.selected.Some? ==> ValidateFile(p.selected.value).None?)
  }

  lemma StepKeepsConsistent(p: Page, e: Event)
    requires Consistent(p)
    ensures Consistent(Step(p, e))
  {
  }

  /** From the initial page, whatever the user does, the page stays
      consistent: no file that fails validation is ever posted. */
  lemma {:induction false} RunKeepsConsistent(p: Page, events: seq<Event>)
    requires Consistent(p)
    ensures Consistent(Run(p, events))
    decreases |events|
  {
    if |events| > 0 {
      StepKeepsConsistent(p, events[0]);
      RunKeepsConsistent(Step(p, events[0]), events[1..]);
    }
  }

  /** Every form the page ever posts carries a file that passed the page's
      validation, whatever the user did before. */
  lemma PostedFilesPassedValidation(events: seq<Event>, inputs: Inputs)
    ensures var p := Run(Initial, events);
      CompressRequest(p, inputs).Some? ==>
        && p.selected.Some?
        && ValidateFile(p.selected.value).None?
        && CompressRequest(p, inputs).value[0] == FilePart("image", UploadHeader(p.selected.value))
  {
    RunKeepsConsistent(Initial, events);
  }
}

=== FILE: config.dfy ===
/** internal/config/config.go: the service's settings, built once from the
    process environment and compiled-in defaults, then shared read-only by the
    validator, the compressor and the HTTP handlers. */
module Config {
  import opened GoStrings
  import opened GoFilePath

  datatype Config = Config(
    port: string,
    downloadDir: string,
    maxFileSize: int,
    allowedFormats: seq<string>,
    defaultQuality: int,
    defaultWidth: int,
    defaultHeight: int)

  /** The process environment. A variable that is not set reads as "", as
      os.Getenv reports it. */
  type Env = map<string, string>

  function Getenv(env: Env, key: string): string {
    if key in env then env[key] else ""
  }

  /** getEnv: the environment's value when it is non-empty, otherwise the
      default. An empty variable is treated exactly like an unset one. */
  function GetEnv(env: Env, key: string, default: string): (v: string)
    ensures key in env && env[key] != "" ==> v == env[key]
    ensures key !in env || env[key] == "" ==> v == default
    ensures v == "" ==> default == ""
  {
    var value := Getenv(env, key);
    if value != "" then value else default
  }

  const DefaultPort: string := "8080"
  const DefaultDownloadDir: string := "./downloads"
  const DefaultMaxFileSize: int := 10 * 1024 * 1024
  const DefaultAllowedFormats: seq<string> := [".png", ".jpg", ".jpeg", ".gif"]
  const DefaultQuality: int := 80
  const DefaultWidth: int := 1920
  const DefaultHeight: int := 1080

  /** An allow-list entry that a lower-cased filepath.Ext result can equal:
      a '.' followed by characters that are neither '.', '/' nor upper-case. */
  predicate IsMatchableFormat(f: string) {
    IsExtensionShape(f) && forall k :: 0 <= k < |f| ==> !IsUpperAscii(f[k])
  }

  /** What the rest of the service silently relies on: every allowed format
      can match, the default quality lies in the range the handler accepts,
      the default bounds are positive so the resize step always runs, and the
      names are non-empty. */
  predicate WellFormed(c: Config) {
    && c.port != ""
    && c.downloadDir != ""
    && c.maxFileSize >= 0
    && (forall f :: f in c.allowedFormats ==> IsMatchableFormat(f))
    && 0 <= c.defaultQuality <= 100
    && c.defaultWidth > 0
    && c.defaultHeight > 0
  }

  /** Load: PORT and DOWNLOAD_DIR come from the environment with fallbacks;
      everything else is compiled in. */
  function Load(env: Env): (c: Config)
    ensures WellFormed(c)
    ensures c.port == (if Getenv(env, "PORT") != "" then env["PORT"] else "8080")
    ensures c.downloadDir == (if Getenv(env, "DOWNLOAD_DIR") != "" then env["DOWNLOAD_DIR"] else "./downloads")
    ensures c.maxFileSize == 10 * 1024 * 1024 == 10_485_760
    ensures c.allowedFormats == [".png", ".jpg", ".jpeg", ".gif"]
    ensures (c.defaultQuality, c.defaultWidth, c.defaultHeight) == (80, 1920, 1080)
  {
    Config(
      port := GetEnv(env, "PORT", DefaultPort),
      downloadDir := GetEnv(env, "DOWNLOAD_DIR", DefaultDownloadDir),
      maxFileSize := DefaultMaxFileSize,
      allowedFormats := DefaultAllowedFormats,
      defaultQuality := DefaultQuality,
      defaultWidth := DefaultWidth,
      defaultHeight := DefaultHeight)
  }

  /** Only PORT and DOWNLOAD_DIR are read: two environments that agree on
      them load the same configuration. */
  lemma LoadReadsOnlyPortAndDir(env1: Env, env2: Env)
    requires Getenv(env1, "PORT") == Getenv(env2, "PORT")
    requires Getenv(env1, "DOWNLOAD_DIR") == Getenv(env2, "DOWNLOAD_DIR")
    ensures Load(env1) == Load(env2)
  {
  }
}

=== FILE: end_to_end.dfy ===
/** How the page, the handlers, the service and the configuration fit
    together: what the page posts is what the handler reads, the two size
    checks agree, the two validators differ in what they look at and in which
    check comes first, and a successful compression hands the page a link the
    download endpoint serves. */
module EndToEnd {
  import opened Results
  import opened GoFilePath
  import opened Config
  import opened ImageService
  import opened Handlers
  import ClientApp

  /** The options the server uses for a form the page built depend only on
      the page's three inputs. */
  lemma PageInputsDecideOptions(cfg: Config, f: ClientApp.File, inputs: ClientApp.Inputs)
    ensures RequestOptions(cfg, ClientApp.CreateFormData(f, inputs)) ==
      Options(
        EffectiveQuality(cfg, inputs.quality),
        EffectiveDimension(cfg.defaultWidth, inputs.width),
        EffectiveDimension(cfg.defaultHeight, inputs.height))
  {
    ClientApp.CreateFormDataReadBack(f, inputs);
  }

  /** Leaving every input empty gives the configured defaults. */
  lemma EmptyInputsGiveDefaults(cfg: Config, f: ClientApp.File)
    ensures RequestOptions(cfg, ClientApp.CreateFormData(f, ClientApp.Inputs("", "", ""))) ==
      Options(cfg.defaultQuality, cfg.defaultWidth, cfg.defaultHeight)
  {
    PageInputsDecideOptions(cfg, f, ClientApp.Inputs("", "", ""));
  }

  /** The page and the loaded server share the 10 MiB limit: the page refuses
      a file for its size exactly when the server's validator would, given
      the header the server stores for it. */
  lemma SizeChecksAgree(env: Env, f: ClientApp.File)
    requires f.mimeType in ClientApp.AllowedTypes
    ensures ClientApp.ValidateFile(f) == Some(ClientApp.TooLarge) <==>
      ImageService.ValidateFile(Load(env), StoredHeader(ClientApp.UploadHeader(f))) == Some(FileTooLarge(Load(env).maxFileSize))
  {
  }

  /** The two validators check in opposite orders: for a large text file the
      page reports the type and the server reports the size. */
  lemma ChecksRunInOppositeOrder(env: Env)
    ensures var f := ClientApp.File("notes.txt", "text/plain", 20 * 1024 * 1024);
      && ClientApp.ValidateFile(f) == Some(ClientApp.WrongType)
      && ImageService.ValidateFile(Load(env), StoredHeader(ClientApp.UploadHeader(f))) == Some(FileTooLarge(10 * 1024 * 1024))
  {
  }

  /** The page looks at the MIME type and the server at the name, so a file
      the page accepts can still be refused: a PNG whose name has no
      extension. */
  lemma PageAcceptsWhatServerRefuses(env: Env)
    ensures var f := ClientApp.File("scan", "image/png", 1000);
      && ClientApp.ValidateFile(f).None?
      && ImageService.ValidateFile(Load(env), StoredHeader(ClientApp.UploadHeader(f))) == Some(UnsupportedFormat(DefaultAllowedFormats))
  {
    var f := ClientApp.File("scan", "image/png", 1000);
    assert forall k :: 0 <= k < |f.name| ==> f.name[k] != '/' by {
      assert f.name == ['s', 'c', 'a', 'n'];
    }
    ClientApp.PlainNameIsKept(f);
    ExtensionlessNameIsRefused(env);
  }

  /** The server's validator refuses a PNG called "scan": it has no
      extension. */
  lemma ExtensionlessNameIsRefused(env: Env)
    ensures ImageService.ValidateFile(Load(env), FileHeader("scan", 1000, "image/png")) ==
      Some(UnsupportedFormat(DefaultAllowedFormats))
  {
    ExtEmptyIff("scan");
  }

  /** A file whose name is empty passes the page's checks but reaches the
      server as a plain value, so the handler reports no image at all. */
  lemma NamelessUploadIsNoImage(
    cfg: Config, f: ClientApp.File, inputs: ClientApp.Inputs, backend: Backend, unix: int)
    requires f.name == ""
    ensures CompressHandler(cfg, ClientApp.CreateFormData(f, inputs), backend, unix).response ==
      Json(StatusBadRequest, Failure("No image file provided"))
  {
    ClientApp.CreateFormDataReadBack(f, inputs);
  }

  /** With the loaded configuration every image that reaches the compressor
      is resized, whatever the request's fields say. */
  lemma LoadedServiceAlwaysResizes(env: Env, form: Form, backend: Backend, unix: int)
    requires backend.decode.Done?
    ensures var h := CompressHandler(Load(env), form, backend, unix);
      h.compressedWith.Some? ==>
        var o := h.compressedWith.value;
        && 0 <= o.quality <= 100
        && CompressImage(backend, o.quality, o.width, o.height, unix).resizedTo == Some(Bounds(o.width, o.height))
  {
    HandlerAlwaysResizes(Load(env), form, backend, unix);
    RequestOptionsInRange(Load(env), form);
  }

  /** A full round: the page posts its selection, the handler answers, and
      when the compression succeeded the page's download link is
      "/api/download/" plus the generated name, which the download endpoint
      serves from the download directory. */
  lemma SuccessfulRoundLeadsToServedFile(
    cfg: Config, p: ClientApp.Page, inputs: ClientApp.Inputs, backend: Backend, unix: int)
    requires p.selected.Some?
    ensures
      var form := ClientApp.CompressRequest(p, inputs).value;
      var h := CompressHandler(cfg, form, backend, unix);
      var q := ClientApp.Compress(p, ClientApp.Answered(h.response));
      h.response.status == StatusOK ==>
        var name := OutputFileName(unix);
        && q.result == Some("/api/download/" + name)
        && q.error.None?
        && DownloadHandler(cfg, name) == ServeFile(cfg.downloadDir + "/" + name)
  {
    var form := ClientApp.CompressRequest(p, inputs).value;
    SuccessLinkIsServed(cfg, form, backend, unix);
  }

  /** When the server refuses a request, the page shows the server's own
      message and no result. */
  lemma RefusalIsShown(cfg: Config, p: ClientApp.Page, inputs: ClientApp.Inputs, backend: Backend, unix: int)
    requires p.selected.Some?
    ensures
      var form := ClientApp.CompressRequest(p, inputs).value;
      var h := CompressHandler(cfg, form, backend, unix);
      var q := ClientApp.Compress(p, ClientApp.Answered(h.response));
      h.response.status != StatusOK ==>
        q.error == Some(h.response.body.error) && q.result.None?
  {
  }
}

=== FILE: filepath.dfy ===
/** Go's `filepath.Ext` and `filepath.Base` on a platform whose only path
    separator is '/': the extension of a path is the suffix that starts at the
    last '.' of its final element, or the empty string when that element has
    no '.'; the base of a path is its final element once trailing separators
    are dropped. */
module GoFilePath {
  import opened GoStrings

  /** The characters of an extension after its leading '.' contain neither
      another '.' nor a separator. */
  predicate IsExtensionShape(e: string) {
    |e| >= 1 && e[0] == '.' && forall k :: 1 <= k < |e| ==> e[k] != '.' && e[k] != '/'
  }

  /** Where the final element of a path starts: just after its last
      separator, or at 0 when it has none. */
  function FinalElementStart(path: string): (b: nat)
    ensures b <= |path|
    ensures b > 0 ==> path[b - 1] == '/'
    ensures forall k :: b <= k < |path| ==> path[k] != '/'
    decreases |path|
  {
    if |path| == 0 then 0
    else if path[|path| - 1] == '/' then |path|
    else FinalElementStart(path[..|path| - 1])
  }

  /** filepath.Ext, read from the right end of the path: a separator ends the
      search with "", a '.' ends it with the suffix from that dot. */
  function Ext(path: string): (e: string)
    ensures |e| <= |path| && e == path[|path| - |e|..]
    ensures e != "" ==> IsExtensionShape(e)
    decreases |path|
  {
    if |path| == 0 then ""
    else
      var c := path[|path| - 1];
      if c == '/' then ""
      else if c == '.' then "."
      else
        var front := path[..|path| - 1];
        var e := Ext(front);
        if e == "" then ""
        else
          e + [c]
  }

  /** When `i` holds the last '.' of the final element, the extension is the
      suffix from `i`. */
  lemma ExtAtLastDot(path: string, i: int)
    requires 0 <= i < |path| && path[i] == '.'
    requires forall k :: i < k < |path| ==> path[k] != '.' && path[k] != '/'
    ensures Ext(path) == path[i..]
  {
    var e := Ext(path);
    assert '/' !in path[i + 1..];
    assert e != "";
    var j := |path| - |e|;
    assert path[j] == e[0] == '.';
    assert j <= i;
    assert path[i] == e[i - j];
    assert j == i;
  }

  /** A non-empty extension starts at a '.' inside the final element. */
  lemma ExtDotInFinalElement(path: string)
    requires Ext(path) != ""
    ensures FinalElementStart(path) <= |path| - |Ext(path)|
    ensures path[|path| - |Ext(path)|] == '.'
  {
  }

  /** The extension is empty exactly when the final element of the path has
      no '.'. */
  lemma {:induction false} ExtEmptyIff(path: string)
    ensures Ext(path) == "" <==> forall k :: FinalElementStart(path) <= k < |path| ==> path[k] != '.'
    decreases |path|
  {
    if Ext(path) != "" {
      ExtDotInFinalElement(path);
      var j := |path| - |Ext(path)|;
      assert path[j] == '.';
    } else if |path| > 0 && path[|path| - 1] != '/' {
      var front := path[..|path| - 1];
      ExtEmptyIff(front);
      assert FinalElementStart(path) == FinalElementStart(front);
      forall k | FinalElementStart(path) <= k < |path|
        ensures path[k] != '.'
      {
        if k < |front| {
          assert path[k] == front[k];
        }
      }
    }
  }

  /** Lower-casing commutes with taking the extension: ASCII case folding
      leaves '.' and '/' where they are and changes no length. */
  lemma ExtToLower(path: string)
    ensures Ext(ToLower(path)) == ToLower(Ext(path))
  {
    var lower := ToLower(path);
    var e := Ext(path);
    if e != "" {
      var j := |path| - |e|;
      assert path[j] == e[0] == '.';
      forall k | j < k < |lower|
        ensures lower[k] != '.' && lower[k] != '/'
      {
        assert path[k] == e[k - j];
      }
      ExtAtLastDot(lower, j);
      ToLowerSuffix(path, j);
    } else {
      var f := Ext(lower);
      if f != "" {
        var j := |lower| - |f|;
        assert lower[j] == f[0] == '.';
        forall k | j < k < |path|
          ensures path[k] != '.' && path[k] != '/'
        {
          assert lower[k] == f[k - j];
        }
        ExtAtLastDot(path, j);
        assert false;
      }
    }
  }

  /** The path with its trailing separators dropped. */
  function TrimTrailingSlashes(path: string): (t: string)
    ensures |t| <= |path| && t == path[..|t|]
    ensures t == "" || t[|t| - 1] != '/'
    ensures forall k :: |t| <= k < |path| ==> path[k] == '/'
    decreases |path|
  {
    if |path| > 0 && path[|path| - 1] == '/' then TrimTrailingSlashes(path[..|path| - 1])
    else path
  }

  /** filepath.Base: "." for the empty path, "/" for a path made only of
      separators, and otherwise the final element left once trailing
      separators are dropped. */
  function Base(path: string): (b: string)
    ensures path == "" ==> b == "."
    ensures b != ""
    ensures b == "/" <==> path != "" && forall k :: 0 <= k < |path| ==> path[k] == '/'
    ensures b != "/" ==> forall k :: 0 <= k < |b| ==> b[k] != '/'
  {
    if path == "" then "."
    else
      var t := TrimTrailingSlashes(path);
      if t == "" then "/"
      else t[FinalElementStart(t)..]
  }

  /** Base names the element after the directory part and before any
      trailing separators, whatever the directory part is. */
  lemma BaseOfPath(dir: string, name: string, trail: string)
    requires dir == "" || dir[|dir| - 1] == '/'
    requires name != "" && forall k :: 0 <= k < |name| ==> name[k] != '/'
    requires forall k :: 0 <= k < |trail| ==> trail[k] == '/'
    ensures Base(dir + name + trail) == name
  {
    TrimTrailingSlashesOf(dir + name, trail);
    FinalElementStartAfter(dir, name);
    assert (dir + name)[|dir|..] == name;
  }

  /** Separators appended to a path that does not end in one are exactly
      what TrimTrailingSlashes drops. */
  lemma {:induction false} TrimTrailingSlashesOf(p: string, trail: string)
    requires p == "" || p[|p| - 1] != '/'
    requires forall k :: 0 <= k < |trail| ==> trail[k] == '/'
    ensures TrimTrailingSlashes(p + trail) == p
    decreases |trail|
  {
    if trail == "" {
      assert p + trail == p;
    } else {
      var front := trail[..|trail| - 1];
      assert (p + trail)[..|p + trail| - 1] == p + front;
      TrimTrailingSlashesOf(p, front);
    }
  }

  /** After a directory part ending in a separator, an element without one
      is the final element. */
  lemma {:induction false} FinalElementStartAfter(dir: string, name: string)
    requires dir == "" || dir[|dir| - 1] == '/'
    requires forall k :: 0 <= k < |name| ==> name[k] != '/'
    ensures FinalElementStart(dir + name) == |dir|
    decreases |name|
  {
    if name == "" {
      assert dir + name == dir;
    } else {
      var front := name[..|name| - 1];
      assert (dir + name)[..|dir + name| - 1] == dir + front;
      FinalElementStartAfter(dir, front);
    }
  }

  /** A name that is already a single element is its own base, so Base is
      idempotent. */
  lemma BaseIdempotent(path: string)
    ensures Base(Base(path)) == Base(path)
  {
    var b := Base(path);
    if b != "/" {
      BaseOfPath("", b, "");
      assert "" + b + "" == b;
    }
  }

  /** The trailing separator goes: "a.png/" has base "a.png". */
  lemma BaseDropsTrailingSlash()
    ensures Base("a.png/") == "a.png"
  {
    BaseOfPath("", "a.png", "/");
    assert "" + "a.png" + "/" == "a.png/";
  }

  /** The directory part goes: "photos/2024/cat.jpg" has base "cat.jpg". */
  lemma BaseDropsDirectory()
    ensures Base("photos/2024/cat.jpg") == "cat.jpg"
  {
    BaseOfPath("photos/2024/", "cat.jpg", "");
    assert "photos/2024/" + "cat.jpg" + "" == "photos/2024/cat.jpg";
  }
}

=== FILE: gostrings.dfy ===
/** The pieces of Go's `strings`, `strconv` and `fmt` packages that the
    service's decision logic relies on, restated over `string` (a sequence of
    characters). Only ASCII case folding is modelled. */
module GoStrings {
  import opened Results

  // ---------------------------------------------------------------------------
  // Case folding (strings.ToLower, ASCII only)
  // ---------------------------------------------------------------------------

  predicate IsUpperAscii(c: char) {
    'A' <= c <= 'Z'
  }

  function LowerChar(c: char): (d: char)
    ensures !IsUpperAscii(c) ==> d == c
    ensures IsUpperAscii(c) ==> 'a' <= d <= 'z' && d as int == c as int + 32
  {
    if IsUpperAscii(c) then (c as int + 32) as char else c
  }

  /** strings.ToLower restricted to ASCII: upper-case letters become lower-case,
      every other character is kept. */
  function ToLower(s: string): (t: string)
    ensures |t| == |s|
    ensures forall i :: 0 <= i < |s| ==> t[i] == LowerChar(s[i])
  {
    seq(|s|, i requires 0 <= i < |s| => LowerChar(s[i]))
  }

  /** Lower-casing leaves no upper-case ASCII letter and is idempotent. */
  lemma ToLowerIdempotent(s: string)
    ensures forall i :: 0 <= i < |s| ==> !IsUpperAscii(ToLower(s)[i])
    ensures ToLower(ToLower(s)) == ToLower(s)
  {
  }

  /** Lower-casing a suffix gives the same suffix of the lower-cased string. */
  lemma ToLowerSuffix(s: string, k: nat)
    requires k <= |s|
    ensures ToLower(s[k..]) == ToLower(s)[k..]
  {
  }

  // ---------------------------------------------------------------------------
  // Substrings (strings.Contains, strings.HasPrefix, strings.HasSuffix)
  // ---------------------------------------------------------------------------

  predicate HasPrefix(s: string, p: string) {
    |p| <= |s| && s[..|p|] == p
  }

  predicate HasSuffix(s: string, p: string) {
    |p| <= |s| && s[|s| - |p|..] == p
  }

  /** `sub` occurs in `s` starting at position `i`. */
  predicate OccursAt(s: string, sub: string, i: int) {
    0 <= i && i + |sub| <= |s| && forall k :: 0 <= k < |sub| ==> s[i + k] == sub[k]
  }

  /** strings.Index, scanning left to right from position `from`: the first
      position at or after `from` where `sub` occurs, or -1 when there is none. */
  function IndexFrom(s: string, sub: string, from: nat): (r: int)
    ensures r == -1 || (from <= r && OccursAt(s, sub, r))
    ensures r == -1 <==> forall j :: from <= j ==> !OccursAt(s, sub, j)
    ensures r != -1 ==> forall j :: from <= j < r ==> !OccursAt(s, sub, j)
    decreases |s| - from
  {
    if from + |sub| > |s| then -1
    else if OccursAt(s, sub, from) then from
    else IndexFrom(s, sub, from + 1)
  }

  /** strings.Contains: `sub` occurs somewhere in `s`. */
  function Contains(s: string, sub: string): (b: bool)
    ensures b <==> exists i :: OccursAt(s, sub, i)
  {
    IndexFrom(s, sub, 0) != -1
  }

  /** Contains(s, "/") holds exactly when some character of `s` is '/'. */
  lemma ContainsSlash(s: string)
    ensures Contains(s, "/") <==> '/' in s
  {
    if '/' in s {
      var i :| 0 <= i < |s| && s[i] == '/';
      assert OccursAt(s, "/", i);
    }
    if Contains(s, "/") {
      var i :| OccursAt(s, "/", i);
      assert s[i + 0] == "/"[0];
    }
  }

  /** Contains(s, "..") holds exactly when two adjacent characters are both '.'. */
  lemma ContainsDotDot(s: string)
    ensures Contains(s, "..") <==> exists i :: 0 <= i < |s| - 1 && s[i] == '.' && s[i + 1] == '.'
  {
    if Contains(s, "..") {
      var i :| OccursAt(s, "..", i);
      assert s[i + 0] == ".."[0] && s[i + 1] == ".."[1];
    }
    if i :| 0 <= i < |s| - 1 && s[i] == '.' && s[i + 1] == '.' {
      assert OccursAt(s, "..", i);
    }
  }

  // ---------------------------------------------------------------------------
  // strings.Join
  // ---------------------------------------------------------------------------

  /** The combined length of a list of strings. */
  function TotalLength(parts: seq<string>): nat {
    if |parts| == 0 then 0 else |parts[0]| + TotalLength(parts[1..])
  }

  /** strings.Join: the parts in order with `sep` between each neighbouring
      pair, so a list of n >= 1 parts carries exactly n - 1 separators. */
  function Join(parts: seq<string>, sep: string): (s: string)
    ensures |parts| == 0 ==> s == ""
    ensures |parts| == 1 ==> s == parts[0]
    ensures |parts| >= 2 ==> HasPrefix(s, parts[0] + sep)
    ensures |parts| >= 1 ==> HasSuffix(s, parts[|parts| - 1])
    ensures |parts| >= 1 ==> |s| == TotalLength(parts) + (|parts| - 1) * |sep|
  {
    if |parts| == 0 then ""
    else if |parts| == 1 then parts[0]
    else
      var rest := Join(parts[1..], sep);
      var s := parts[0] + sep + rest;
      assert s[..|parts[0] + sep|] == parts[0] + sep;
      assert s[|s| - |rest|..] == rest;
      assert parts[1..][|parts[1..]| - 1] == parts[|parts| - 1];
      s
  }

  /** Joining two or more parts: the first part, the separator, then the rest
      joined. */
  lemma JoinCons(parts: seq<string>, sep: string)
    requires |parts| >= 2
    ensures Join(parts, sep) == parts[0] + sep + Join(parts[1..], sep)
  {
  }

  // ---------------------------------------------------------------------------
  // Decimal numerals (fmt's %d and strconv.Atoi)
  // ---------------------------------------------------------------------------

  const MinInt64: int := -0x8000_0000_0000_0000
  const MaxInt64: int := 0x7fff_ffff_ffff_ffff

  predicate IsDigit(c: char) {
    '0' <= c <= '9'
  }

  predicate AllDigits(s: string) {
    forall i :: 0 <= i < |s| ==> IsDigit(s[i])
  }

  function DigitValue(c: char): nat
    requires IsDigit(c)
  {
    c as int - '0' as int
  }

  function DigitChar(d: nat): (c: char)
    requires d < 10
    ensures IsDigit(c) && DigitValue(c) == d
  {
    ('0' as int + d) as char
  }

  /** The number a string of decimal digits denotes, read most significant
      digit first (the accumulation `n = n*10 + digit` of strconv). */
  function DecimalValue(s: string): nat
    requires AllDigits(s)
    decreases |s|
  {
    if |s| == 0 then 0 else DecimalValue(s[..|s| - 1]) * 10 + DigitValue(s[|s| - 1])
  }

  /** The canonical decimal numeral of a natural number: at least one digit, no
      leading zero, and it denotes `n`. */
  function Decimal(n: nat): (s: string)
    ensures |s| >= 1 && AllDigits(s)
    ensures DecimalValue(s) == n
    ensures s[0] == '0' ==> n == 0 && s == "0"
  {
    if n < 10 then [DigitChar(n)]
    else
      var s := Decimal(n / 10) + [DigitChar(n % 10)];
      assert s[..|s| - 1] == Decimal(n / 10);
      s
  }

  /** fmt's `%d` for an integer: an optional '-' followed by the decimal
      numeral of the magnitude, with no leading zero and no "-0". */
  function FormatInt(n: int): (s: string)
    ensures |s| >= 1
    ensures forall i :: 0 <= i < |s| ==> IsDigit(s[i]) || (i == 0 && s[i] == '-')
    ensures s[0] == '-' <==> n < 0
    ensures s[0] == '0' ==> s == "0"
    ensures s[0] == '-' ==> |s| >= 2 && s[1] != '0'
  {
    if n < 0 then "-" + Decimal(-n) else Decimal(n)
  }

  /** A signed decimal numeral: an optional '+' or '-' followed by at least one
      decimal digit, and nothing else. Leading zeros are allowed. */
  predicate IsSignedNumeral(s: string) {
    && |s| >= 1
    && if s[0] == '+' || s[0] == '-' then |s| >= 2 && AllDigits(s[1..]) else AllDigits(s)
  }

  /** The integer a signed decimal numeral denotes. */
  function NumeralValue(s: string): int
    requires IsSignedNumeral(s)
  {
    if s[0] == '-' then -(DecimalValue(s[1..]) as int)
    else if s[0] == '+' then DecimalValue(s[1..])
    else DecimalValue(s)
  }

  /** strconv.Atoi on a 64-bit platform: an optional sign followed by at least
      one decimal digit, whose value fits in int64; anything else (the empty
      string, a lone sign, spaces, underscores, an out-of-range value) is an
      error, modelled as None. */
  function Atoi(s: string): (r: Option<int>)
    ensures r.Some? <==> IsSignedNumeral(s) && MinInt64 <= NumeralValue(s) <= MaxInt64
    ensures r.Some? ==> r.value == NumeralValue(s)
    ensures r.Some? ==> MinInt64 <= r.value <= MaxInt64
    ensures r.Some? ==> |s| >= 1 && (IsDigit(s[0]) || s[0] == '+' || s[0] == '-')
    ensures r.Some? ==> forall i :: 1 <= i < |s| ==> IsDigit(s[i])
    ensures r.Some? && r.value < 0 ==> s[0] == '-'
  {
    if |s| == 0 then None
    else
      var digits := if s[0] == '-' || s[0] == '+' then s[1..] else s;
      if |digits| == 0 || !AllDigits(digits) then None
      else
        var magnitude: int := DecimalValue(digits);
        var v: int := if s[0] == '-' then -magnitude else magnitude;
        if MinInt64 <= v <= MaxInt64 then Some(v) else None
  }

  /** Printing an int64 with %d and reading it back with Atoi gives the same
      number. */
  lemma AtoiFormatInt(n: int)
    requires MinInt64 <= n <= MaxInt64
    ensures Atoi(FormatInt(n)) == Some(n)
  {
    var s := FormatInt(n);
    if n < 0 {
      assert s[1..] == Decimal(-n);
    } else {
      assert s == Decimal(n);
      assert IsDigit(s[0]);
    }
  }

  /** %d is injective: different numbers print differently. */
  lemma FormatIntInjective(a: int, b: int)
    requires MinInt64 <= a <= MaxInt64 && MinInt64 <= b <= MaxInt64
    ensures FormatInt(a) == FormatInt(b) <==> a == b
  {
    if FormatInt(a) == FormatInt(b) {
      AtoiFormatInt(a);
      AtoiFormatInt(b);
    }
  }
}

=== FILE: handlers.dfy ===
/** internal/api/handlers.go: the two HTTP endpoints. POST /api/compress reads
    the multipart form, validates the upload, works out the compression
    options from the optional form fields and reports the outcome as JSON;
    GET /api/download/:filename guards the requested name and serves the file
    from the download directory. */
module Handlers {
  import opened Results
  import opened GoStrings
  import opened GoFilePath
  import opened Config
  import opened ImageService

  // ---------------------------------------------------------------------------
  // Requests and responses
  // ---------------------------------------------------------------------------

  /** One part of a multipart form, in the order the client sent it. A file
      part's header carries the file name exactly as the client sent it. */
  datatype Part =
    | FilePart(name: string, header: FileHeader)
    | FieldPart(name: string, value: string)

  type Form = seq<Part>

  /** A file part sent under `key`. Go's multipart reader files a part that
      has an empty file name as a plain value, not as a file. */
  predicate IsFileNamed(p: Part, key: string) {
    p.FilePart? && p.name == key && p.header.filename != ""
  }

  /** The header Go's multipart reader stores for a file part: the file name
      is reduced to its filepath.Base. */
  function StoredHeader(h: FileHeader): (s: FileHeader)
    ensures s.size == h.size && s.contentType == h.contentType
    ensures h.filename != "" ==>
      s.filename != "" && (s.filename == "/" || forall k :: 0 <= k < |s.filename| ==> s.filename[k] != '/')
  {
    h.(filename := Base(h.filename))
  }

  /** A plain field sent under `key`. */
  predicate IsFieldNamed(p: Part, key: string) {
    p.FieldPart? && p.name == key
  }

  /** c.Request.FormFile(key): the stored header of the first file part
      under `key` (Go returns the first header stored for the key); None is
      the error Go reports when there is none. */
  function FormFile(form: Form, key: string): (r: Option<FileHeader>)
    ensures r.None? <==> forall i :: 0 <= i < |form| ==> !IsFileNamed(form[i], key)
    ensures forall i :: (0 <= i < |form| && IsFileNamed(form[i], key)
                         && forall j :: 0 <= j < i ==> !IsFileNamed(form[j], key)) ==>
      r == Some(StoredHeader(form[i].header))
  {
    if |form| == 0 then None
    else if IsFileNamed(form[0], key) then Some(StoredHeader(form[0].header))
    else FormFile(form[1..], key)
  }

  /** c.PostForm(key): the first value of the field `key`, or "" when the form
      has no such field. */
  function PostForm(form: Form, key: string): (v: string)
    ensures (forall i :: 0 <= i < |form| ==> !IsFieldNamed(form[i], key)) ==> v == ""
    ensures forall i :: (0 <= i < |form| && IsFieldNamed(form[i], key)
                         && forall j :: 0 <= j < i ==> !IsFieldNamed(form[j], key)) ==>
      v == form[i].value
  {
    if |form| == 0 then ""
    else if IsFieldNamed(form[0], key) then form[0].value
    else PostForm(form[1..], key)
  }

  /** The JSON object a handler answers with. The float fields
      (compression_ratio, processing_time) are not modelled. */
  datatype Body =
    | Failure(error: string)
    | Success(
        message: string,
        originalSize: int,
        compressedSize: int,
        outputFile: string,
        downloadUrl: string)

  datatype Response =
    | Json(status: int, body: Body)
    | ServeFile(path: string)

  const StatusOK: int := 200
  const StatusBadRequest: int := 400
  const StatusInternalServerError: int := 500

  // ---------------------------------------------------------------------------
  // Compression options
  // ---------------------------------------------------------------------------

  datatype Options = Options(quality: int, width: int, height: int)

  /** The quality field: used when it parses as an integer in 0..100,
      otherwise silently replaced by the configured default. */
  function EffectiveQuality(cfg: Config, field: string): (q: int)
    ensures Atoi(field).Some? && 0 <= Atoi(field).value <= 100 ==> q == Atoi(field).value
    ensures !(Atoi(field).Some? && 0 <= Atoi(field).value <= 100) ==> q == cfg.defaultQuality
  {
    var quality := cfg.defaultQuality;
    if field != "" then
      match Atoi(field)
      case Some(q) => if 0 <= q <= 100 then q else quality
      case None => quality
    else quality
  }

  /** The width or height field: used when it parses as a positive integer,
      otherwise silently replaced by the configured default. */
  function EffectiveDimension(default: int, field: string): (d: int)
    ensures Atoi(field).Some? && Atoi(field).value > 0 ==> d == Atoi(field).value
    ensures !(Atoi(field).Some? && Atoi(field).value > 0) ==> d == default
  {
    if field != "" then
      match Atoi(field)
      case Some(w) => if w > 0 then w else default
      case None => default
    else default
  }

  /** The options CompressImage is called with: each one is either the
      configured default or the value its form field parses to; the parsed
      value is used exactly when it is in range. */
  function RequestOptions(cfg: Config, form: Form): (o: Options)
    ensures (Atoi(PostForm(form, "quality")).Some? && 0 <= Atoi(PostForm(form, "quality")).value <= 100) ==>
      o.quality == Atoi(PostForm(form, "quality")).value
    ensures !(Atoi(PostForm(form, "quality")).Some? && 0 <= Atoi(PostForm(form, "quality")).value <= 100) ==>
      o.quality == cfg.defaultQuality
    ensures (Atoi(PostForm(form, "width")).Some? && Atoi(PostForm(form, "width")).value > 0) ==>
      o.width == Atoi(PostForm(form, "width")).value
    ensures !(Atoi(PostForm(form, "width")).Some? && Atoi(PostForm(form, "width")).value > 0) ==>
      o.width == cfg.defaultWidth
    ensures (Atoi(PostForm(form, "height")).Some? && Atoi(PostForm(form, "height")).value > 0) ==>
      o.height == Atoi(PostForm(form, "height")).value
    ensures !(Atoi(PostForm(form, "height")).Some? && Atoi(PostForm(form, "height")).value > 0) ==>
      o.height == cfg.defaultHeight
  {
    Options(
      EffectiveQuality(cfg, PostForm(form, "quality")),
      EffectiveDimension(cfg.defaultWidth, PostForm(form, "width")),
      EffectiveDimension(cfg.defaultHeight, PostForm(form, "height")))
  }

  /** With a well-formed configuration every request, whatever its fields,
      ends up with a quality the encoder accepts and positive bounds. */
  lemma RequestOptionsInRange(cfg: Config, form: Form)
    requires WellFormed(cfg)
    ensures var o := RequestOptions(cfg, form);
      0 <= o.quality <= 100 && o.width > 0 && o.height > 0
  {
  }

  /** Worked quality fields: 0 and 100 are accepted, a sign is allowed,
      anything out of range or unparsable falls back to the default. */
  lemma QualityExamples(cfg: Config)
    ensures EffectiveQuality(cfg, "0") == 0
    ensures EffectiveQuality(cfg, "100") == 100
    ensures EffectiveQuality(cfg, "+50") == 50
    ensures EffectiveQuality(cfg, "101") == cfg.defaultQuality
    ensures EffectiveQuality(cfg, "-1") == cfg.defaultQuality
    ensures EffectiveQuality(cfg, "") == cfg.defaultQuality
    ensures EffectiveQuality(cfg, "high") == cfg.defaultQuality
    ensures EffectiveQuality(cfg, " 50") == cfg.defaultQuality
  {
    assert DecimalValue("100") == 100 by {
      assert "100"[..2] == "10" && "10"[..1] == "1";
    }
    assert DecimalValue("50") == 50 by {
      assert "50"[..1] == "5";
    }
    assert DecimalValue("101") == 101 by {
      assert "101"[..2] == "10" && "10"[..1] == "1";
    }
    assert "+50"[1..] == "50";
    assert "-1"[1..] == "1";
    assert !IsDigit(" 50"[0]);
  }

  /** Worked dimension fields: zero and negative values fall back. */
  lemma DimensionExamples(default: int)
    ensures EffectiveDimension(default, "800") == 800
    ensures EffectiveDimension(default, "0") == default
    ensures EffectiveDimension(default, "-800") == default
    ensures EffectiveDimension(default, "800px") == default
  {
    assert DecimalValue("800") == 800 by {
      assert "800"[..2] == "80" && "80"[..1] == "8";
    }
    assert "-800"[1..] == "800";
    assert !IsDigit("800px"[3]);
  }

  // ---------------------------------------------------------------------------
  // POST /api/compress
  // ---------------------------------------------------------------------------

  /** What one call of the compress handler did: its response, whether it ran
      the validator, and the options it handed to the compressor (None when
      the compressor was not called). */
  datatype Handled = Handled(response: Response, validated: bool, compressedWith: Option<Options>)

  function DownloadUrl(outputFile: string): string {
    "/api/download/" + outputFile
  }

  /** CompressImage (the handler), for a request whose compression, if it is
      reached, meets the library outcomes `backend` at Unix second `unix`. */
  function CompressHandler(cfg: Config, form: Form, backend: Backend, unix: int): (h: Handled)
    ensures FormFile(form, "image").None? ==>
      h == Handled(Json(StatusBadRequest, Failure("No image file provided")), false, None)
    ensures FormFile(form, "image").Some? ==> h.validated
    ensures FormFile(form, "image").Some? && ValidateFile(cfg, FormFile(form, "image").value).Some? ==>
      && h.response == Json(StatusBadRequest, Failure(ValidateFile(cfg, FormFile(form, "image").value).value.Message()))
      && h.compressedWith.None?
    ensures h.compressedWith.Some? <==>
      FormFile(form, "image").Some? && ValidateFile(cfg, FormFile(form, "image").value).None?
    ensures h.compressedWith.Some? ==> h.compressedWith.value == RequestOptions(cfg, form)
    ensures h.response.Json?
    ensures h.response.status == StatusOK <==> h.response.body.Success?
    ensures h.response.status == StatusInternalServerError ==>
      && h.compressedWith.Some?
      && var o := h.compressedWith.value;
         var run := CompressImage(backend, o.quality, o.width, o.height, unix);
         && run.result.Err?
         && h.response.body == Failure("Failed to compress image: " + run.result.error.Message())
    ensures h.response.status in {StatusOK, StatusBadRequest, StatusInternalServerError}
    ensures h.response.body.Failure? ==> h.response.body.error != ""
    ensures h.response.body.Success? ==>
      && h.compressedWith.Some?
      && var o := h.compressedWith.value;
         var run := CompressImage(backend, o.quality, o.width, o.height, unix);
         && run.result.Ok?
         && h.response.body.message == "Image compressed successfully"
         && h.response.body.originalSize == run.result.value.originalSize
         && h.response.body.compressedSize == run.result.value.compressedSize
         && h.response.body.outputFile == run.result.value.outputFileName == OutputFileName(unix)
         && h.response.body.downloadUrl == "/api/download/" + h.response.body.outputFile
  {
    match FormFile(form, "image")
    case None =>
      Handled(Json(StatusBadRequest, Failure("No image file provided")), false, None)
    case Some(header) =>
      match ValidateFile(cfg, header)
      case Some(err) =>
        Handled(Json(StatusBadRequest, Failure(err.Message())), true, None)
      case None =>
        var options := RequestOptions(cfg, form);
        var run := CompressImage(backend, options.quality, options.width, options.height, unix);
        match run.result
        case Err(e) =>
          Handled(Json(StatusInternalServerError, Failure("Failed to compress image: " + e.Message())), true, Some(options))
        case Ok(r) =>
          Handled(
            Json(StatusOK, Success(
              "Image compressed successfully",
              r.originalSize,
              r.compressedSize,
              r.outputFileName,
              DownloadUrl(r.outputFileName))),
            true,
            Some(options))
  }

  /** A request that passes validation gets 200 exactly when every library
      step succeeds, and 500 otherwise. */
  lemma CompressStatusMatchesPipeline(cfg: Config, form: Form, backend: Backend, unix: int)
    requires FormFile(form, "image").Some? && ValidateFile(cfg, FormFile(form, "image").value).None?
    ensures var h := CompressHandler(cfg, form, backend, unix);
      var o := RequestOptions(cfg, form);
      && (h.response.status == StatusOK <==> CompressImage(backend, o.quality, o.width, o.height, unix).result.Ok?)
      && (h.response.status == StatusInternalServerError <==> CompressImage(backend, o.quality, o.width, o.height, unix).result.Err?)
  {
  }

  /** A file part sent with an empty file name is no file at all: the
      handler answers as if the image part were missing. */
  lemma NamelessFilePartIsNoImage(cfg: Config, backend: Backend, unix: int)
    ensures var form := [FilePart("image", FileHeader("", 1000, "image/png"))];
      CompressHandler(cfg, form, backend, unix) ==
        Handled(Json(StatusBadRequest, Failure("No image file provided")), false, None)
  {
  }

  /** The validator sees the base of the sent name: "a.png/" is checked as
      "a.png" and passes under the loaded configuration. */
  lemma HandlerValidatesBaseName(env: Env, backend: Backend, unix: int)
    ensures var form := [FilePart("image", FileHeader("a.png/", 1000, "image/png"))];
      && FormFile(form, "image") == Some(FileHeader("a.png", 1000, "image/png"))
      && CompressHandler(Load(env), form, backend, unix).compressedWith.Some?
  {
    BaseDropsTrailingSlash();
    PngNamePasses(env);
  }

  /** The loaded validator accepts a small file called "a.png". */
  lemma PngNamePasses(env: Env)
    ensures ValidateFile(Load(env), FileHeader("a.png", 1000, "image/png")).None?
  {
    var name := "a.png";
    ToLowerSuffix(name, 1);
    assert name[1..] == ".png";
    var t := ToLower(".png");
    assert t[0] == '.' && t[1] == 'p' && t[2] == 'n' && t[3] == 'g';
    assert t == ".png";
    NormalizedExtOfSuffix(name, ".png");
  }

  /** With a well-formed configuration the compressor always resizes: the
      handler never leaves both bounds unset. */
  lemma HandlerAlwaysResizes(cfg: Config, form: Form, backend: Backend, unix: int)
    requires WellFormed(cfg)
    requires backend.decode.Done?
    ensures var h := CompressHandler(cfg, form, backend, unix);
      h.compressedWith.Some? ==>
        var o := h.compressedWith.value;
        CompressImage(backend, o.quality, o.width, o.height, unix).resizedTo == Some(Bounds(o.width, o.height))
  {
    RequestOptionsInRange(cfg, form);
  }

  // ---------------------------------------------------------------------------
  // GET /api/download/:filename
  // ---------------------------------------------------------------------------

  /** DownloadFile: an empty name and any name containing ".." or "/" are
      refused with 400; anything else is served from the download directory. */
  function DownloadHandler(cfg: Config, filename: string): (r: Response)
    ensures filename == "" ==> r == Json(StatusBadRequest, Failure("No filename provided"))
    ensures filename != "" && (Contains(filename, "..") || Contains(filename, "/")) ==>
      r == Json(StatusBadRequest, Failure("Invalid filename"))
    ensures r.ServeFile? <==> filename != "" && !Contains(filename, "..") && !Contains(filename, "/")
    ensures r.ServeFile? ==> r.path == cfg.downloadDir + "/" + filename
  {
    if filename == "" then
      Json(StatusBadRequest, Failure("No filename provided"))
    else if Contains(filename, "..") || Contains(filename, "/") then
      Json(StatusBadRequest, Failure("Invalid filename"))
    else
      ServeFile(cfg.downloadDir + "/" + filename)
  }

  /** What the guard buys: a served path is the download directory, one '/',
      and a single non-empty path element that holds no separator and is not
      the parent directory "..". */
  lemma DownloadStaysInDirectory(cfg: Config, filename: string)
    requires DownloadHandler(cfg, filename).ServeFile?
    ensures var path := DownloadHandler(cfg, filename).path;
      && HasPrefix(path, cfg.downloadDir + "/")
      && var element := path[|cfg.downloadDir| + 1..];
         element == filename && element != "" && element != ".." && '/' !in element
  {
    ContainsSlash(filename);
    ContainsDotDot(filename);
    var path := cfg.downloadDir + "/" + filename;
    assert path[..|cfg.downloadDir| + 1] == cfg.downloadDir + "/";
    assert path[|cfg.downloadDir| + 1..] == filename;
  }

  /** The guard refuses the classic traversal attempts. */
  lemma DownloadRefusesTraversal(cfg: Config)
    ensures DownloadHandler(cfg, "../secret") == Json(StatusBadRequest, Failure("Invalid filename"))
    ensures DownloadHandler(cfg, "..") == Json(StatusBadRequest, Failure("Invalid filename"))
    ensures DownloadHandler(cfg, "sub/file.webp") == Json(StatusBadRequest, Failure("Invalid filename"))
    ensures DownloadHandler(cfg, "") == Json(StatusBadRequest, Failure("No filename provided"))
  {
    assert Contains("../secret", "..") by {
      assert OccursAt("../secret", "..", 0);
    }
    assert Contains("..", "..") by {
      assert OccursAt("..", "..", 0);
    }
    assert Contains("sub/file.webp", "/") by {
      assert OccursAt("sub/file.webp", "/", 3);
    }
  }

  /** The guard admits ".", which names the download directory itself. */
  lemma DownloadAdmitsDot(cfg: Config)
    ensures DownloadHandler(cfg, ".") == ServeFile(cfg.downloadDir + "/.")
  {
    ContainsDotDot(".");
    ContainsSlash(".");
  }

  /** Every name the compressor generates passes the download guard and is
      served from the download directory. */
  lemma GeneratedNamePassesGuard(cfg: Config, unix: int)
    ensures DownloadHandler(cfg, OutputFileName(unix)) == ServeFile(cfg.downloadDir + "/" + OutputFileName(unix))
  {
    var name := OutputFileName(unix);
    OutputFileNameIsPlain(unix);
    ContainsSlash(name);
    ContainsDotDot(name);
  }

  /** The download link of every successful response leads to a file the
      download handler serves: the link is "/api/download/" followed by a name
      that passes the guard. */
  lemma SuccessLinkIsServed(cfg: Config, form: Form, backend: Backend, unix: int)
    ensures var h := CompressHandler(cfg, form, backend, unix);
      h.response.body.Success? ==>
        var name := h.response.body.outputFile;
        && h.response.body.downloadUrl == "/api/download/" + name
        && DownloadHandler(cfg, name) == ServeFile(cfg.downloadDir + "/" + name)
  {
    GeneratedNamePassesGuard(cfg, unix);
  }
}

=== FILE: image_service.dfy ===
/** internal/service/image_service.go: the upload validator and the
    compression pipeline. The pipeline's library and filesystem steps (decode,
    file creation, WebP encoding, size measurement) are not modelled; their
    outcomes are an input, and the model states what the service decides
    around them: which step runs, with what settings, under what output name,
    and which error it reports. */
module ImageService {
  import opened Results
  import opened GoStrings
  import opened GoFilePath
  import opened Config

  // ---------------------------------------------------------------------------
  // Validation (ValidateFile, isAllowedFormat)
  // ---------------------------------------------------------------------------

  /** The parts of a multipart file header the service can see: the client's
      file name, the size of the part, and the client's declared content type. */
  datatype FileHeader = FileHeader(filename: string, size: int, contentType: string)

  datatype ValidationError =
    | FileTooLarge(limit: int)
    | UnsupportedFormat(allowed: seq<string>)
  {
    /** The error text the handler passes on to the client. */
    function Message(): (m: string)
      ensures FileTooLarge? ==>
        HasPrefix(m, "file size exceeds maximum allowed size of ") && HasSuffix(m, " bytes")
      ensures UnsupportedFormat? ==>
        HasPrefix(m, "unsupported file format. Allowed formats: ") && m[42..] == Join(allowed, ", ")
    {
      match this
      case FileTooLarge(limit) =>
        var m := "file size exceeds maximum allowed size of " + FormatInt(limit) + " bytes";
        assert m[..42] == "file size exceeds maximum allowed size of ";
        assert m[|m| - 6..] == " bytes";
        m
      case UnsupportedFormat(allowed) =>
        var m := "unsupported file format. Allowed formats: " + Join(allowed, ", ");
        assert m[..42] == "unsupported file format. Allowed formats: ";
        m
    }
  }

  /** The size error states the configured limit: it reads back as a number
      from between the fixed prefix and suffix. */
  lemma FileTooLargeMessageNamesLimit(limit: int)
    requires MinInt64 <= limit <= MaxInt64
    ensures var m := FileTooLarge(limit).Message();
      Atoi(m[42..|m| - 6]) == Some(limit)
  {
    var m := FileTooLarge(limit).Message();
    assert m[42..|m| - 6] == FormatInt(limit);
    AtoiFormatInt(limit);
  }

  /** The shipped allow-list, joined as the format error joins it. */
  lemma JoinDefaultFormats()
    ensures Join(DefaultAllowedFormats, ", ") == ".png, .jpg, .jpeg, .gif"
  {
    var f := DefaultAllowedFormats;
    var tail2 := [".jpeg", ".gif"];
    var tail1 := [".jpg", ".jpeg", ".gif"];
    JoinCons(tail2, ", ");
    assert tail2[1..] == [".gif"];
    JoinCons(tail1, ", ");
    assert tail1[1..] == tail2;
    JoinCons(f, ", ");
    assert f[1..] == tail1;
  }

  /** The format error under the shipped allow-list lists the formats in
      order, separated by ", ". */
  lemma UnsupportedFormatMessageLists()
    ensures UnsupportedFormat(DefaultAllowedFormats).Message()
      == "unsupported file format. Allowed formats: " + ".png, .jpg, .jpeg, .gif"
  {
    var m := UnsupportedFormat(DefaultAllowedFormats).Message();
    JoinDefaultFormats();
    assert m == m[..42] + m[42..];
  }

  /** isAllowedFormat: a linear scan of the allow-list for an exact
      (case-sensitive) match. */
  function IsAllowedFormat(formats: seq<string>, ext: string): (b: bool)
    ensures b <==> ext in formats
  {
    if |formats| == 0 then false
    else formats[0] == ext || IsAllowedFormat(formats[1..], ext)
  }

  /** The extension the validator compares. The service lower-cases
      filepath.Ext of the client's file name; it is computed here in the other
      order, which NormalizedExtIsLoweredExt shows gives the same string. */
  function NormalizedExt(filename: string): (e: string)
    ensures e == "" || IsExtensionShape(e)
    ensures HasSuffix(ToLower(filename), e)
  {
    Ext(ToLower(filename))
  }

  /** The validator's extension is the service's own expression: the
      lower-cased extension of the file name. */
  lemma NormalizedExtIsLoweredExt(filename: string)
    ensures NormalizedExt(filename) == ToLower(Ext(filename))
  {
    ExtToLower(filename);
  }

  /** ValidateFile: None plays the role of Go's nil error. The size check comes
      first; a file that fails it is reported as too large whatever its name. */
  function ValidateFile(cfg: Config, header: FileHeader): (r: Option<ValidationError>)
    ensures header.size > cfg.maxFileSize ==> r == Some(FileTooLarge(cfg.maxFileSize))
    ensures header.size <= cfg.maxFileSize ==>
      (r.None? <==> NormalizedExt(header.filename) in cfg.allowedFormats)
    ensures header.size <= cfg.maxFileSize && r.Some? ==>
      r == Some(UnsupportedFormat(cfg.allowedFormats))
  {
    if header.size > cfg.maxFileSize then
      Some(FileTooLarge(cfg.maxFileSize))
    else if !IsAllowedFormat(cfg.allowedFormats, NormalizedExt(header.filename)) then
      Some(UnsupportedFormat(cfg.allowedFormats))
    else
      None
  }

  /** A lower-cased name that ends in a proper extension has exactly that
      extension. */
  lemma NormalizedExtOfSuffix(filename: string, f: string)
    requires IsExtensionShape(f) && HasSuffix(ToLower(filename), f)
    ensures NormalizedExt(filename) == f
  {
    var lower := ToLower(filename);
    var i := |lower| - |f|;
    assert lower[i..] == f;
    forall k | i < k < |lower|
      ensures lower[k] != '.' && lower[k] != '/'
    {
      assert lower[k] == f[k - i];
    }
    ExtAtLastDot(lower, i);
    assert Ext(lower) == f;
    ExtToLower(filename);
  }

  /** The validator, restated without filepath.Ext: with an allow-list of
      proper extensions, a file passes exactly when it is not over the limit
      and its lower-cased name ends in one of the allowed extensions. */
  lemma ValidateFileBySuffix(cfg: Config, header: FileHeader)
    requires forall f :: f in cfg.allowedFormats ==> IsExtensionShape(f)
    ensures ValidateFile(cfg, header).None? <==>
      header.size <= cfg.maxFileSize &&
      exists f :: f in cfg.allowedFormats && HasSuffix(ToLower(header.filename), f)
  {
    if header.size <= cfg.maxFileSize {
      var e := NormalizedExt(header.filename);
      if e in cfg.allowedFormats {
        assert HasSuffix(ToLower(header.filename), e);
      }
      if f :| f in cfg.allowedFormats && HasSuffix(ToLower(header.filename), f) {
        NormalizedExtOfSuffix(header.filename, f);
      }
    }
  }

  /** The validator reads only the size and the name: the declared content
      type, like the file's bytes, plays no part. */
  lemma ValidateFileIgnoresContentType(cfg: Config, h1: FileHeader, h2: FileHeader)
    requires h1.filename == h2.filename && h1.size == h2.size
    ensures ValidateFile(cfg, h1) == ValidateFile(cfg, h2)
  {
  }

  /** Case is folded: an upper-case extension is compared in lower case. */
  lemma NormalizedExtFoldsCase()
    ensures NormalizedExt("photo.PNG") == ".png"
  {
    var photo := "photo.PNG";
    ToLowerSuffix(photo, 5);
    assert photo[5..] == ".PNG";
    var t := ToLower(".PNG");
    assert t[0] == '.' && t[1] == 'p' && t[2] == 'n' && t[3] == 'g';
    assert t == ".png";
    NormalizedExtOfSuffix(photo, ".png");
  }

  /** Only the last dot-suffix counts. */
  lemma NormalizedExtTakesLastDot()
    ensures NormalizedExt("a.png.exe") == ".exe"
  {
    var name := "a.png.exe";
    ToLowerSuffix(name, 5);
    assert name[5..] == ".exe";
    var t := ToLower(".exe");
    assert t[0] == '.' && t[1] == 'e' && t[2] == 'x' && t[3] == 'e';
    assert t == ".exe";
    NormalizedExtOfSuffix(name, ".exe");
  }

  /** A name without a dot has no extension. */
  lemma NormalizedExtWithoutDot()
    ensures NormalizedExt("README") == ""
  {
    ExtEmptyIff("README");
    NormalizedExtIsLoweredExt("README");
  }

  /** Only the final element counts: a dot in an earlier element gives no
      extension. */
  lemma NormalizedExtDotInDirectory()
    ensures NormalizedExt("holiday.png/raw") == ""
  {
    var p := "holiday.png/raw";
    assert p[11] == '/';
    assert FinalElementStart(p) == 12;
    ExtEmptyIff(p);
    NormalizedExtIsLoweredExt(p);
  }

  /** Worked cases of the size check under the loaded configuration: the
      bound is inclusive, and an oversized file is reported as too large even
      when its name would also be refused. */
  lemma SizeCheckExamples(env: Env)
    ensures ValidateFile(Load(env), FileHeader("edge.jpeg", 10 * 1024 * 1024, "image/jpeg")) == None
    ensures ValidateFile(Load(env), FileHeader("edge.jpeg", 10 * 1024 * 1024 + 1, "image/jpeg"))
      == Some(FileTooLarge(10 * 1024 * 1024))
    ensures ValidateFile(Load(env), FileHeader("huge.exe", 20 * 1024 * 1024, "text/plain"))
      == Some(FileTooLarge(10 * 1024 * 1024))
  {
    NormalizedExtAllowedJpeg();
  }

  /** Worked cases of the format check under the loaded configuration: the
      extension is compared case-insensitively, only the last dot-suffix of
      the name counts, and a final element without a dot is refused. */
  lemma FormatCheckExamples(env: Env)
    ensures ValidateFile(Load(env), FileHeader("photo.PNG", 1000, "image/png")) == None
    ensures ValidateFile(Load(env), FileHeader("a.png.exe", 10, "image/png"))
      == Some(UnsupportedFormat(DefaultAllowedFormats))
    ensures ValidateFile(Load(env), FileHeader("README", 10, "image/png"))
      == Some(UnsupportedFormat(DefaultAllowedFormats))
    ensures ValidateFile(Load(env), FileHeader("holiday.png/raw", 10, "image/png"))
      == Some(UnsupportedFormat(DefaultAllowedFormats))
  {
    NormalizedExtFoldsCase();
    NormalizedExtTakesLastDot();
    NormalizedExtWithoutDot();
    NormalizedExtDotInDirectory();
  }

  /** Exactly an allowed extension. */
  lemma NormalizedExtAllowedJpeg()
    ensures NormalizedExt("edge.jpeg") == ".jpeg"
  {
    var jpeg := "edge.jpeg";
    ToLowerSuffix(jpeg, 4);
    assert jpeg[4..] == ".jpeg";
    var t := ToLower(".jpeg");
    assert t[0] == '.' && t[1] == 'j' && t[2] == 'p' && t[3] == 'e' && t[4] == 'g';
    assert t == ".jpeg";
    NormalizedExtOfSuffix(jpeg, ".jpeg");
  }

  // ---------------------------------------------------------------------------
  // Compression (CompressImage)
  // ---------------------------------------------------------------------------

  /** What a library or filesystem step reported: success, or an error with
      the library's text. */
  datatype StepOutcome = Done | Failed(reason: string)

  /** The outcomes of the steps CompressImage delegates, in the order it
      performs them: image.Decode, os.Create, webp.Encode, then the two Seek
      calls that measure the output and the upload. */
  datatype Backend = Backend(
    decode: StepOutcome,
    create: StepOutcome,
    encode: StepOutcome,
    compressedSize: Result<int, string>,
    originalSize: Result<int, string>)

  datatype ServiceError =
    | DecodeFailed(reason: string)
    | CreateFailed(reason: string)
    | EncodeFailed(reason: string)
    | CompressedSizeFailed(reason: string)
    | OriginalSizeFailed(reason: string)
  {
    /** The words fmt.Errorf puts before the wrapped library error. */
    function Prefix(): string {
      match this
      case DecodeFailed(_) => "failed to decode image: "
      case CreateFailed(_) => "failed to create output file: "
      case EncodeFailed(_) => "failed to encode WebP: "
      case CompressedSizeFailed(_) => "failed to get compressed file size: "
      case OriginalSizeFailed(_) => "failed to get original file size: "
    }

    /** The error text: the step's words, then the library's own text. */
    function Message(): (m: string)
      ensures HasPrefix(m, "failed to ") && HasPrefix(m, Prefix())
      ensures m[|Prefix()|..] == reason
    {
      var m := Prefix() + reason;
      assert m[..|Prefix()|] == Prefix();
      assert Prefix()[..10] == "failed to ";
      assert m[..10] == Prefix()[..10];
      m
    }
  }

  /** The message names the failing step and keeps the library's text intact:
      two errors read the same exactly when they are the same error. */
  lemma ServiceErrorMessageInjective(a: ServiceError, b: ServiceError)
    ensures a.Message() == b.Message() <==> a == b
  {
    if a.Message() == b.Message() {
      var m := a.Message();
      assert m[10] == a.Prefix()[10] == b.Prefix()[10];
      assert m[14] == a.Prefix()[14] == b.Prefix()[14];
      assert a.Prefix() == b.Prefix();
      assert a.reason == m[|a.Prefix()|..] == b.reason;
    }
  }

  /** The bounding box handed to imaging.Fit. */
  datatype Bounds = Bounds(width: int, height: int)

  /** The settings handed to webp.Encode. */
  datatype EncoderOptions = EncoderOptions(lossless: bool, quality: int)

  datatype CompressionResult = CompressionResult(
    originalSize: int,
    compressedSize: int,
    outputFileName: string)

  /** One run of CompressImage: the resize it requested (if any), the encoder
      settings it used (if it got that far), and its result. */
  datatype Compression = Compression(
    resizedTo: Option<Bounds>,
    encodedWith: Option<EncoderOptions>,
    result: Result<CompressionResult, ServiceError>)

  /** The resize decision: the image is fitted into width x height exactly
      when at least one of them is positive. */
  function ResizeBounds(width: int, height: int): (r: Option<Bounds>)
    ensures r.Some? <==> width > 0 || height > 0
    ensures r.Some? ==> r.value == Bounds(width, height)
  {
    if width > 0 || height > 0 then Some(Bounds(width, height)) else None
  }

  /** The output file name for a request served at Unix second `unix`. */
  function OutputFileName(unix: int): (name: string)
    ensures HasPrefix(name, "compressed_") && HasSuffix(name, ".webp")
    ensures |name| == 16 + |FormatInt(unix)| && name[11..|name| - 5] == FormatInt(unix)
  {
    var name := "compressed_" + FormatInt(unix) + ".webp";
    assert name[..11] == "compressed_";
    assert name[|name| - 5..] == ".webp";
    assert name[11..|name| - 5] == FormatInt(unix);
    name
  }

  /** The output name holds a single '.', the one that starts ".webp", and no
      separator: it is one plain path element. */
  lemma OutputFileNameIsPlain(unix: int)
    ensures var name := OutputFileName(unix);
      && '/' !in name
      && forall i :: 0 <= i < |name| && name[i] == '.' ==> i == |name| - 5
  {
    var digits := FormatInt(unix);
    var name := OutputFileName(unix);
    assert name == "compressed_" + digits + ".webp";
    forall i | 0 <= i < |name|
      ensures name[i] != '/'
      ensures name[i] == '.' ==> i == |name| - 5
    {
      if i < 11 {
        assert name[i] == "compressed_"[i];
      } else if i < 11 + |digits| {
        assert name[i] == digits[i - 11];
      } else {
        assert name[i] == ".webp"[i - 11 - |digits|];
      }
    }
  }

  /** The output name records the second it was made in: the timestamp can
      be read back from between the prefix and the suffix. */
  lemma OutputFileNameEncodesTime(unix: int)
    requires MinInt64 <= unix <= MaxInt64
    ensures var name := OutputFileName(unix);
      Atoi(name[11..|name| - 5]) == Some(unix)
  {
    var name := OutputFileName(unix);
    assert name[11..|name| - 5] == FormatInt(unix);
    AtoiFormatInt(unix);
  }

  /** Two requests get the same output name exactly when they are served in
      the same Unix second; that is the only way outputs overwrite each other. */
  lemma OutputFileNameCollision(a: int, b: int)
    requires MinInt64 <= a <= MaxInt64 && MinInt64 <= b <= MaxInt64
    ensures OutputFileName(a) == OutputFileName(b) <==> a == b
  {
    if OutputFileName(a) == OutputFileName(b) {
      OutputFileNameEncodesTime(a);
      OutputFileNameEncodesTime(b);
    }
  }

  /** CompressImage(file, quality, width, height) at Unix second `unix`: decode,
      optionally resize, name the output, create it, encode it lossily at
      `quality`, then measure both files. The first failing step decides the
      error; no later step runs. */
  function CompressImage(backend: Backend, quality: int, width: int, height: int, unix: int): (c: Compression)
    ensures c.resizedTo == (if backend.decode.Done? then ResizeBounds(width, height) else None)
    ensures c.encodedWith.Some? <==> backend.decode.Done? && backend.create.Done?
    ensures c.encodedWith.Some? ==> c.encodedWith.value == EncoderOptions(false, quality)
    ensures c.result.Ok? <==>
      && backend.decode.Done? && backend.create.Done? && backend.encode.Done?
      && backend.compressedSize.Ok? && backend.originalSize.Ok?
    ensures c.result.Ok? ==>
      c.result.value == CompressionResult(backend.originalSize.value, backend.compressedSize.value, OutputFileName(unix))
    ensures backend.decode.Failed? ==> c.result == Err(DecodeFailed(backend.decode.reason))
    ensures backend.decode.Done? && backend.create.Failed? ==>
      c.result == Err(CreateFailed(backend.create.reason))
    ensures backend.decode.Done? && backend.create.Done? && backend.encode.Failed? ==>
      c.result == Err(EncodeFailed(backend.encode.reason))
    ensures (backend.decode.Done? && backend.create.Done? && backend.encode.Done?
             && backend.compressedSize.Err?) ==>
      c.result == Err(CompressedSizeFailed(backend.compressedSize.error))
    ensures (backend.decode.Done? && backend.create.Done? && backend.encode.Done?
             && backend.compressedSize.Ok? && backend.originalSize.Err?) ==>
      c.result == Err(OriginalSizeFailed(backend.originalSize.error))
  {
    if backend.decode.Failed? then
      Compression(None, None, Err(DecodeFailed(backend.decode.reason)))
    else
      var resized := ResizeBounds(width, height);
      var name := OutputFileName(unix);
      if backend.create.Failed? then
        Compression(resized, None, Err(CreateFailed(backend.create.reason)))
      else
        var options := EncoderOptions(false, quality);
        if backend.encode.Failed? then
          Compression(resized, Some(options), Err(EncodeFailed(backend.encode.reason)))
        else if backend.compressedSize.Err? then
          Compression(resized, Some(options), Err(CompressedSizeFailed(backend.compressedSize.error)))
        else if backend.originalSize.Err? then
          Compression(resized, Some(options), Err(OriginalSizeFailed(backend.originalSize.error)))
        else
          Compression(resized, Some(options),
            Ok(CompressionResult(backend.originalSize.value, backend.compressedSize.value, name)))
  }
}

=== FILE: results.dfy ===
/** Failure-carrying wrappers used throughout the model: an optional value
    (Go's "value or nil") and a value-or-error result (Go's "(T, error)"). */
module Results {

  datatype Option<+T> = None | Some(value: T)

  datatype Result<+T, +E> = Ok(value: T) | Err(error: E)
}
